=== FILE: README.md ===
# Dynamic work dispatch over MPI: the coordinator's bookkeeping

`dynamic_mpi.c` runs one coordinator (rank 0) and `size - 1` workers. The
coordinator generates a queue of 1024 work items, each with a uid equal to
its queue slot and a random category in 0..4. It deals one item to each
worker, then loops: it receives a completion, records it, counts it per
worker and per category, and answers with the next item at the cursor
`queue_head`. Once the queue is exhausted it answers with a stop sentinel
(`uid = -1`) instead, and it leaves its loop once every worker has been
sent a sentinel. A worker computes each item it receives, reports it, and
leaves its loop on the sentinel.

This project models that protocol in Dafny as pure state machines.

- `Workloads` (workload.dfy) holds:
  - the `workload` record with a 32-bit unsigned uid;
  - the C conversions between `unsigned int` and `int` that make the sentinel work;
  - `working` and the return-value logic of `recv_workload`.
- `Tally` (tally.dfy) has the sums, counts and index ranges used to state the properties.
- `Sleep` (sleep.dfy) is `sleeptime`, with the value of `rand()` as a parameter.
- `Dispatch` (dispatch.dfy) is the coordinator. Its state is:
  - the queue;
  - the cursor;
  - `finished`;
  - the two count tables.

  It has queue generation, the seed phase, `handle_workers` with `blocking` set, the listening loop, and a whole coordinator run over an arbitrary arrival order of messages. Every send is part of the output, as an item or a sentinel addressed to a rank.
- `SeedAsWritten` (seed_as_written.dfy) is the seed loop exactly as the code writes it: rank `i` is sent `queue[i]`. See Findings.
- `Workers` (worker.dfy) is the worker loop: await a record, compute, report, and stop on the sentinel. Its two receives test for the sentinel differently.
- `Protocol` (protocol.dfy) closes the system: the coordinator, one worker per rank, and a FIFO channel each way between them. Any schedule of events preserves an invariant of the run. Its log-free part (`Live`: shapes of the channels and the coordinator's counters) holds from the seed loop as written as well as from the corrected one, and it alone gives progress: the run cannot deadlock before the coordinator is done, and when it is done every worker has been sent its sentinel. With the corrected seed loop the whole invariant holds, and when the coordinator leaves its loop:
  - every worker has been sent exactly one sentinel;
  - every item has been dealt exactly once, in queue order;
  - each table has counted 1024 completions.

The log-level results use the corrected seed loop, which sends the record at the cursor; the progress results are also proved from the seed loop as written (`Protocol.AsWrittenRunStopsEveryWorker`).

The coordinator keeps no record of which completions it has seen, so a duplicate is stored, counted and answered again (`Dispatch.DuplicateCompletionCountedTwice`). Its only validation of a returned uid is the range test of `working`, and `Dispatch.HandleWorkers` applies exactly that test.

## Model

| member | source | states |
|---|---|---|
| Workloads.ToUint32 | dynamic_mpi.c:96-97 | storing an `int` in the unsigned uid reduces it modulo 2^32 and leaves values in range unchanged; -1 becomes 2^32 - 1 |
| Workloads.AsInt32 | dynamic_mpi.c:180 | passing the unsigned uid to `working`'s `int` parameter gives a value in the 32-bit signed range that converts back to the same uid |
| Workloads.RecvId | dynamic_mpi.c:175-183 | `recv_workload` returns the sender's rank exactly when the uid is below `WORKLOAD_SIZE`, and -1 otherwise, in particular for the sentinel |
| Workloads.Working | dynamic_mpi.c:153-155 | a working value is a queue index, and on every 32-bit `int` `working` agrees with the unsigned comparison against 1024: a negative value such as -1 fails it as the huge unsigned value it stands for would |
| Workloads.SentinelReadsAsMinusOne | dynamic_mpi.c:153-155 | the sentinel's uid is 2^32 - 1, reads as -1 as an `int`, and is never a working position |
| Workloads.HighUidsTurnNegative | dynamic_mpi.c:180 | any uid of 2^31 or more turns negative as an `int` and is rejected by the lower bound of `working` |
| Sleep.SleepTime | dynamic_mpi.c:234-254 | categories 0..4 sleep within [100000, 3000000), [2000000, 5000000), [1000000, 6000000), [5000000, 7500000) and [7000000, 9000000) microseconds; any other category sleeps 0 |
| Sleep.SleepRangeIsExact | dynamic_mpi.c:234-254 | every duration in a category's range comes from some value `rand()` can return, so the ranges are exact |
| Sleep.GeneratedCategoriesSleep | dynamic_mpi.c:185-193 | a worker's sleep, with the unsigned category passed as `int`, is between 0.1 and 9 seconds for generated categories and 0 for any other |
| Dispatch.GenerateQueue | dynamic_mpi.c:82-86 | slot k of the generated queue has uid k, category `rand() % NUM_TYPES` and no elapsed time |
| Dispatch.Init | dynamic_mpi.c:57-86 | before the seed phase the coordinator is consistent, with cursor and `finished` at 0 and zeroed statistics |
| Dispatch.UpdateStats | dynamic_mpi.c:157-163 | the sender's count and the category's count each rise by one, nothing else changes, and both table sums rise by one |
| Dispatch.SeedFrom | dynamic_mpi.c:89-102 | seed loop with the record at the cursor: send j gives an item to rank first + j while the queue lasts, else a sentinel; cursor and `finished` have closed forms |
| Dispatch.Seed | dynamic_mpi.c:89-102 | each rank 1..size-1 gets one message: item uid r - 1 if r - 1 < 1024, else a sentinel; then `queue_head = min(size - 1, 1024)` and `finished = (size - 1) - queue_head` (seed loop corrected, see Findings) |
| Dispatch.SeedSends | dynamic_mpi.c:89-102 | the seed phase's items are uids 0 .. queue_head - 1 in order, each once; it sends `finished` sentinels, one to each rank beyond the items (seed loop corrected, see Findings) |
| Dispatch.DealtItems | dynamic_mpi.c:89-102 | each prefix of the seed sends holds the first items in order, and sentinels for the rest |
| Dispatch.DealtStops | dynamic_mpi.c:89-102 | each prefix of the seed sends gives one sentinel to every rank past the queue, and none to any other rank |
| Dispatch.HandleWorkers | dynamic_mpi.c:204-227 | consumes one message and returns 0 or 1, returning 1 exactly when it sent a sentinel (rest of contract below the table) |
| Dispatch.MasterStep | dynamic_mpi.c:120-125 | one loop iteration: the state `handle_workers` leaves, with `finished += added`, so `finished` grows by the number of sentinels sent |
| Dispatch.StepExtendsRun | dynamic_mpi.c:120-125 | one iteration sends at most the item at the old cursor, replies once exactly when the message is valid, and adds one count per reply |
| Dispatch.MasterLoop | dynamic_mpi.c:120-125 | stops early only when every worker is finished; keeps the state consistent; cursor never moves back; counts = replies = valid messages; items are the next uids in order |
| Dispatch.RunCoordinator | dynamic_mpi.c:88-125 | over a whole coordinator run, items sent are uids 0, 1, ... up to the cursor with none twice; `finished` counts the sentinels; both tables count the valid completions (seed loop corrected, see Findings) |
| Dispatch.DuplicateCompletionCountedTwice | dynamic_mpi.c:210-214 | the same valid completion delivered twice is counted twice and answered twice |
| SeedAsWritten.SeedAsWrittenFrom | dynamic_mpi.c:89-102 | the loop as written, when it completes, sends exactly one message to each worker rank from the first on, in rank order: an item while the cursor is working and a sentinel after; every item it deals is the queue slot named by the recipient's rank; it reads past the end only at a worker's rank that indexes beyond the queue |
| SeedAsWritten.AsWrittenBookkeeping | dynamic_mpi.c:89-102 | from any state, whenever the loop as written completes it leaves the cursor and `finished` where the corrected loop leaves them and changes nothing else |
| SeedAsWritten.AsWrittenInStep | dynamic_mpi.c:89-102 | same state and same item/sentinel ranks as the corrected loop, but rank r gets slot r; reads `queue[1024]` exactly when rank 1024 is still to be served |
| SeedAsWritten.AsWrittenFromStart | dynamic_mpi.c:89-102 | from a cursor at 0, the loop as written reads past the end exactly when size > 1024; otherwise rank r gets the item in slot r |
| SeedAsWritten.SeedAsWritten | dynamic_mpi.c:89-102 | the seed phase as written reads `queue[1024]` exactly when size > 1024; otherwise rank r is sent the item with uid r |
| SeedAsWritten.AsWrittenSameState | dynamic_mpi.c:89-102 | apart from the payloads, the loop as written leaves the state the corrected loop leaves |
| SeedAsWritten.AsWrittenSkipsSlotZero | dynamic_mpi.c:92-94 | with 2 <= size <= 1024, no seed send carries uid 0 (the corrected loop's first does); the last worker gets uid size - 1; cursor ends at size - 1 |
| SeedAsWritten.AsWrittenRedealsLastItem | dynamic_mpi.c:93-94 | after the seed phase as written, the first valid completion is answered with uid size - 1, which the last worker already holds |
| SeedAsWritten.AsWrittenReadsPastEnd | dynamic_mpi.c:93 | with 1025 processes, the seed phase as written reads `queue[1024]` |
| Workers.Compute | dynamic_mpi.c:185-193 | `compute_workload` leaves uid and category as they were and stores the elapsed time in `f` |
| Workers.Continue | dynamic_mpi.c:110-114 | while `working(queue_head)`, the worker keeps its `queue_head` and sends back exactly one record, the one it now holds, with the new elapsed time; once stopped it keeps its state and sends nothing |
| Workers.Receive | dynamic_mpi.c:104-117 | first receive stops only on the exact sentinel uid, later ones on any uid of 1024 or more; a stopped worker sends nothing; otherwise it returns its record with only elapsed time changed |
| Workers.SentinelStopsItemsDoNot | dynamic_mpi.c:104-117 | the sentinel stops a running worker at either receive, and a queue item is always computed and returned |
| Workers.ReceivesDisagreeOffProtocol | dynamic_mpi.c:104-116 | uid 1024 is computed by a worker at its first receive but stops a worker at a later receive |
| Protocol.Launch | dynamic_mpi.c:88-107 | the start of the run, after the seed phase, satisfies the run invariant, with the cursor at min(size - 1, 1024) (seed loop corrected, see Findings) |
| Protocol.LaunchInv | dynamic_mpi.c:88-107 | after the seed phase every rank is well shaped, the tallies balance, and the log holds items 0 .. head - 1 and one sentinel per stopped rank (seed loop corrected, see Findings) |
| Protocol.LaunchStatuses | dynamic_mpi.c:88-107 | right after the seed phase the first 1024 workers hold an item and the rest are stopped (seed loop corrected, see Findings) |
| Protocol.LaunchRank | dynamic_mpi.c:88-107 | a worker starts with exactly the record it was sent waiting for it: an item while the queue lasted, the sentinel after (seed loop corrected, see Findings) |
| Protocol.LaunchAsWritten | dynamic_mpi.c:88-107 | the start of a run after the seed loop as written (size <= 1024) has the corrected start's coordinator state and satisfies the log-free invariant; with two processes or more it breaks the log clause |
| Protocol.AsWrittenLaunchLive | dynamic_mpi.c:88-107 | after the seed loop as written every rank is well shaped and the counters balance; the log ends with the item whose uid is the cursor, which the log clause forbids |
| Protocol.AsWrittenLaunchStatuses | dynamic_mpi.c:88-107 | right after the seed loop as written every worker holds an item |
| Protocol.AsWrittenRank | dynamic_mpi.c:92-94 | worker r starts with slot r, an item, waiting for it |
| Protocol.LogPastCursor | dynamic_mpi.c:93-94 | a log whose last send is the item carrying the cursor's own uid cannot list exactly uids 0 .. cursor - 1 |
| Protocol.WorkerTurnKeepsInv | dynamic_mpi.c:109-117 | a worker taking its waiting record keeps the log-free invariant and the whole invariant, and changes no rank's status |
| Protocol.ReceiverKept | dynamic_mpi.c:104-117 | the worker taking a record stays well shaped and keeps its status: an item comes back as a report, the sentinel leaves both channels empty and the worker out of its loop |
| Protocol.MasterTurnKeepsInv | dynamic_mpi.c:120-125 | every report the coordinator takes satisfies what `handle_workers` needs, and handling it keeps the log-free invariant and the whole invariant |
| Protocol.MasterTurnFrame | dynamic_mpi.c:204-227 | a report taken comes from a holding worker, gets one reply back to that worker, and no other rank moves |
| Protocol.MasterDealsItem | dynamic_mpi.c:213-214 | while the queue lasts, the log gains exactly the item at the old cursor, sent to the reporting worker, whose uid is that cursor; the cursor advances by one, `finished` stays, the worker keeps holding, no status changes; the log-free invariant and the whole invariant are kept |
| Protocol.ItemKeepsLog | dynamic_mpi.c:213-214 | dealing the item at the cursor extends the items sent by the next uid and sends no sentinel |
| Protocol.MasterDealsStop | dynamic_mpi.c:215-220 | once the queue is exhausted, the log gains exactly one sentinel to the reporting worker, the cursor stays at 1024, `finished` rises by one, that worker goes from holding to stopped and no other rank changes status; the log-free invariant and the whole invariant are kept |
| Protocol.StopKeepsTallies | dynamic_mpi.c:215-220 | a holding worker turning stopped moves one rank between the counts, and `finished` counts it |
| Protocol.StopKeepsLog | dynamic_mpi.c:215-220 | the sentinel sent to a holding worker is the first that rank receives |
| Protocol.Step | dynamic_mpi.c:109-125 | any event keeps the log-free invariant and the whole invariant, and only extends the log of sends; an event that cannot happen changes nothing |
| Protocol.Run | dynamic_mpi.c:109-125 | any schedule of events keeps the log-free invariant and the whole invariant, and only extends the log of sends |
| Protocol.NoDeadlock | dynamic_mpi.c:109-125 | in any state of the log-free invariant (so from either seed loop), while some worker has not been sent its sentinel, some worker or the coordinator can move |
| Protocol.AllWorkersStopped | dynamic_mpi.c:120 | in any state of the log-free invariant (so from either seed loop), `finished` never exceeds the number of workers, and reaching it means every worker has been sent its sentinel |
| Protocol.CoordinatorDone | dynamic_mpi.c:120-125 | in a run with at least one worker (size >= 2), when the coordinator leaves its loop: one sentinel per worker, all 1024 items dealt once in order, 1024 completions in each table, no report left unread (seed loop corrected, see Findings) |
| Protocol.Quiescent | dynamic_mpi.c:109-125 | in any state of the log-free invariant (so from either seed loop), when nothing can move any more, the coordinator has finished every worker and every worker has left its loop |
| Protocol.AsWrittenRunStopsEveryWorker | dynamic_mpi.c:88-125 | for the code as written with 2 <= size <= 1024, under any schedule: `finished` never exceeds the workers, some process can move while it is below, and reaching it means every worker has been sent its sentinel |
| Protocol.RunDeliversEverything | dynamic_mpi.c:88-125 | in a run with at least one worker (size >= 2), under any schedule from the start, the seed sends stay first in the log and `finished` never exceeds the workers; once the coordinator leaves its loop, each worker has had one sentinel, every item was dealt exactly once, and each table counted 1024 completions (seed loop corrected, see Findings) |

`Dispatch.HandleWorkers` also covers `copy_workload` (dynamic_mpi.c:165-169) and `finish_worker` (dynamic_mpi.c:229-231), which it calls. The rest of its contract:

- **Rejected record** (one that `recv_workload` rejects): changes nothing and sends nothing.
- **Valid completion**, all of the following:
  - it overwrites `queue[uid]` and no other slot;
  - it counts the completion once for the sender and once for the category, and leaves every other count unchanged;
  - it replies to the sender exactly once.
- **The reply**, always one of these, never both:
  - `queue[old head]`, with the cursor advanced;
  - a sentinel.

## Left out

- MPI itself: `MPI_Send`, `MPI_Recv`, `MPI_Iprobe`, `MPI_Wtime` and the derived datatype of `create_MPI_Struct` are foreign transport calls. A message is an explicit (sender, record) value; in `Protocol` it is a FIFO channel per rank and direction.
- `workload_waiting` and the non-blocking branch of `handle_workers`: the only call, at line 121, passes `blocking` set.
- Real concurrency: interleavings are an arbitrary input order of messages (`Dispatch`) or of events (`Protocol`).
- `rand()` and `srand`: callers supply the values `rand()` returns, for the categories and for `sleeptime`. `RAND_MAX` is taken as glibc's 2^31 - 1.
- `compute_workload`, `usleep` and the floating-point timings: the elapsed time a worker writes is a parameter of its step.
- Dispatch.UpdateStats: keeps only the counts (`.i`) of the statistics tables. The floating totals (`.f`) and the averages printed at lines 127-145 are left out, because they are floating-point sums of wall-clock readings.
- Dispatch.UpdateStats: the counts are unbounded naturals, not 32-bit unsigned fields. They never exceed 1024 per table in a run, so no wrap-around is reachable.
- Dispatch.HandleWorkers: the sentinel record's category is whatever the code's local `w` held (uninitialised in the seed phase, stale in `handle_workers`). The model fixes it at 0, because no receiver reads it.
- Dispatch.HandleWorkers: requires that the sender is a rank of the run and that a valid record has a category below `NUM_TYPES`. `update_stats` indexes both tables without a bounds check, and MPI only ever reports a rank of the communicator.
- Protocol.CoordinatorDone and Protocol.RunDeliversEverything: they promise that 1024 distinct items were dealt and that each table counted 1024 completions, not that each completion counted is a different item. The run invariant does not tie the record a worker holds or reports to the item last sent to it, so it does not exclude two reports carrying the same uid.
- Protocol.AsWrittenRunStopsEveryWorker: covers 2 <= size <= 1024 only. With more processes the seed loop as written reads `queue[1024]`, past the end of the array (see Findings), and the run after that has no model.
- `printf` reporting, `malloc`/`free` of the per-worker table and the final timing (lines 76-79, 124, 127-150).
- `static_mpi.c` is not part of this model. It fills an array with `rand() % 5` and prints it, which is I/O with no dispatch logic.

## Findings

| source | as written | input that shows it | evidently intended | confidence | as-written member | corrected member |
|---|---|---|---|---|---|---|
| dynamic_mpi.c:93 | the seed loop sends `queue[i]`, the worker's rank, while `queue_head` advances as if `queue[queue_head]` had been sent | size = 3: ranks 1 and 2 get uids 1 and 2, uid 0 is never dealt, and the first completion is answered with uid 2 again | send `queue[queue_head]`, so that the seed phase deals uids 0 .. size - 2 | not executed | SeedAsWritten.AsWrittenRedealsLastItem | Dispatch.Seed |
| dynamic_mpi.c:93 | the same index reads past the end of the 1024-entry queue with 1024 workers or more (size > 1024) | size = 1025: rank 1024 is sent `queue[1024]` | rank 1024 is sent the queue's last item, uid 1023 | not executed | SeedAsWritten.AsWrittenReadsPastEnd | Dispatch.Seed |

=== FILE: dispatch.dfy ===
/** The coordinator of dynamic_mpi.c as a sequential state machine: the
    queue of work items, the cursor `queue_head`, the `finished` counter and
    the per-worker and per-category count tables. A received message is an
    explicit (sender, record) input and every send becomes part of the
    transition's output. */
module Dispatch {
  import opened Workloads
  import opened Tally

  /** What the coordinator sends to a worker: a record of the queue, or the
      stop sentinel. */
  datatype Send = Item(to: nat, w: Workload) | Stop(to: nat)

  /** A completion report as the coordinator receives it: the sender's rank
      and the returned record. */
  datatype Message = Message(sender: nat, w: Workload)

  /** The record a send puts on the wire. */
  function Wire(s: Send): Workload {
    match s
    case Item(_, w) => w
    case Stop(_) => Sentinel()
  }

  /** The coordinator's state. `size` is the number of processes, the
      coordinator included; `workerCounts` is indexed by rank and
      `typeCounts` by category. Only the counts of the statistics tables
      are kept. */
  datatype Coordinator = Coordinator(
    size: nat,
    queue: seq<Workload>,
    head: int,
    finished: int,
    workerCounts: seq<nat>,
    typeCounts: seq<nat>)

  /** Result of the seed phase: the state after it and the sends in rank order. */
  datatype Seeded = Seeded(c: Coordinator, sends: seq<Send>)

  /** Result of one call of `handle_workers`: the state after it, what it
      sent, and its return value (the number of workers it finished). */
  datatype Handled = Handled(c: Coordinator, replies: seq<Send>, added: int)

  /** The tables have the sizes the program allocates. */
  predicate WellFormed(c: Coordinator) {
    && |c.queue| == WORKLOAD_SIZE
    && |c.workerCounts| == c.size
    && |c.typeCounts| == NUM_TYPES
  }

  /** Slot k of the queue holds the item whose uid is k, of a valid category. */
  predicate SelfIndexed(queue: seq<Workload>) {
    forall k :: 0 <= k < |queue| ==> queue[k].uid as int == k && queue[k].i as int < NUM_TYPES
  }

  /** The invariant the coordinator keeps: the cursor within the queue,
      every slot holding its own item, and both statistics tables having
      counted the same completions. */
  predicate Consistent(c: Coordinator) {
    && WellFormed(c)
    && 0 <= c.head <= WORKLOAD_SIZE
    && 0 <= c.finished
    && SelfIndexed(c.queue)
    && Sum(c.workerCounts) == Sum(c.typeCounts)
  }

  /** What the transport and the workers guarantee of a message: the sender
      is a rank of the run, and a record that passes the uid test carries a
      category `update_stats` can index with (it does no bounds check). */
  predicate Acceptable(size: nat, m: Message) {
    m.sender < size && (m.w.uid as int < WORKLOAD_SIZE ==> m.w.i as int < NUM_TYPES)
  }

  /** The uids of the items among some sends, in order. */
  function ItemUids(sends: seq<Send>): seq<nat> {
    if |sends| == 0 then []
    else
      var last := sends[|sends| - 1];
      ItemUids(sends[..|sends| - 1]) + (if last.Item? then [last.w.uid as nat] else [])
  }

  /** How many sentinels some sends hold. */
  function StopCount(sends: seq<Send>): nat {
    if |sends| == 0 then 0
    else StopCount(sends[..|sends| - 1]) + (if sends[|sends| - 1].Stop? then 1 else 0)
  }

  /** How many sentinels some sends address to rank `r`. */
  function StopsTo(sends: seq<Send>, r: nat): nat {
    if |sends| == 0 then 0
    else StopsTo(sends[..|sends| - 1], r) + (if sends[|sends| - 1] == Stop(r) then 1 else 0)
  }

  /** How many messages carry a uid that `recv_workload` accepts. */
  function ValidCount(msgs: seq<Message>): nat {
    if |msgs| == 0 then 0
    else ValidCount(msgs[..|msgs| - 1]) + (if msgs[|msgs| - 1].w.uid as int < WORKLOAD_SIZE then 1 else 0)
  }

  /** One more send adds its uid to the items if it is one, and one
      sentinel to its rank's count if it is a sentinel. */
  lemma LogSnoc(sends: seq<Send>, x: Send)
    ensures ItemUids(sends + [x]) == ItemUids(sends) + (if x.Item? then [x.w.uid as nat] else [])
    ensures StopCount(sends + [x]) == StopCount(sends) + (if x.Stop? then 1 else 0)
    ensures forall r: nat :: StopsTo(sends + [x], r) == StopsTo(sends, r) + (if x == Stop(r) then 1 else 0)
  {
    assert (sends + [x])[..|sends|] == sends;
  }

  lemma {:induction false} ItemUidsAppend(a: seq<Send>, b: seq<Send>)
    ensures ItemUids(a + b) == ItemUids(a) + ItemUids(b)
  {
    if |b| > 0 {
      var n := |b| - 1;
      assert (a + b)[..|a + b| - 1] == a + b[..n];
      ItemUidsAppend(a, b[..n]);
    } else {
      assert a + b == a;
    }
  }

  lemma {:induction false} StopCountAppend(a: seq<Send>, b: seq<Send>)
    ensures StopCount(a + b) == StopCount(a) + StopCount(b)
  {
    if |b| > 0 {
      var n := |b| - 1;
      assert (a + b)[..|a + b| - 1] == a + b[..n];
      StopCountAppend(a, b[..n]);
    } else {
      assert a + b == a;
    }
  }

  /** The queue as generated: slot k holds uid k, category `rand() % NUM_TYPES`
      and no elapsed time. */
  function GenerateQueue(rands: seq<nat>): (q: seq<Workload>)
    requires |rands| == WORKLOAD_SIZE
    ensures |q| == WORKLOAD_SIZE && SelfIndexed(q)
    ensures forall k :: 0 <= k < WORKLOAD_SIZE ==> q[k].i as int == rands[k] % NUM_TYPES && q[k].f == 0.0
  {
    seq(WORKLOAD_SIZE, k requires 0 <= k < WORKLOAD_SIZE =>
      Workload(k as uint32, (rands[k] % NUM_TYPES) as uint32, 0.0))
  }

  /** The coordinator before the seed phase: a fresh queue, cursor and
      counter at zero, zeroed statistics. */
  function Init(size: nat, rands: seq<nat>): (c: Coordinator)
    requires |rands| == WORKLOAD_SIZE
    ensures Consistent(c) && c.size == size
    ensures c.head == 0 && c.finished == 0
    ensures Sum(c.workerCounts) == 0
  {
    Coordinator(size, GenerateQueue(rands), 0, 0, Zeros(size), Zeros(NUM_TYPES))
  }

  /** `update_stats`, counts only: the sender's count and the category's
      count each rise by one and nothing else changes. */
  function UpdateStats(c: Coordinator, w: Workload, id: nat): (r: Coordinator)
    requires WellFormed(c) && id < c.size && w.i as int < NUM_TYPES
    ensures WellFormed(r)
    ensures r == c.(workerCounts := r.workerCounts, typeCounts := r.typeCounts)
    ensures r.workerCounts[id] == c.workerCounts[id] + 1
    ensures forall k :: 0 <= k < c.size && k != id ==> r.workerCounts[k] == c.workerCounts[k]
    ensures r.typeCounts[w.i] == c.typeCounts[w.i] + 1
    ensures forall k :: 0 <= k < NUM_TYPES && k != w.i as int ==> r.typeCounts[k] == c.typeCounts[k]
    ensures Sum(r.workerCounts) == Sum(c.workerCounts) + 1
    ensures Sum(r.typeCounts) == Sum(c.typeCounts) + 1
  {
    var t := w.i as int;
    SumUpdate(c.workerCounts, id, c.workerCounts[id] + 1);
    SumUpdate(c.typeCounts, t, c.typeCounts[t] + 1);
    c.(workerCounts := c.workerCounts[id := c.workerCounts[id] + 1],
       typeCounts := c.typeCounts[t := c.typeCounts[t] + 1])
  }

  /** The seed loop from rank `rank` on: each rank other than the
      coordinator gets the record at the cursor, which then advances, or,
      once the queue is exhausted, a sentinel and is counted finished.
      (This is the loop with the record at the cursor; the loop as written
      is `SeedAsWritten.SeedAsWrittenFrom`.) */
  function SeedFrom(c: Coordinator, rank: nat): (r: Seeded)
    requires WellFormed(c) && 0 <= c.head <= WORKLOAD_SIZE
    decreases c.size - rank
    ensures WellFormed(r.c)
    ensures r.c == c.(head := r.c.head, finished := r.c.finished)
    ensures var first := if rank == MASTER then 1 else rank;
            var n := if c.size > first then c.size - first else 0;
            && r.c.head == Min(c.head + n, WORKLOAD_SIZE)
            && r.c.finished == c.finished + n - (r.c.head - c.head)
            && |r.sends| == n
            && forall j :: 0 <= j < n ==>
                 r.sends[j] == (if c.head + j < WORKLOAD_SIZE then Item(first + j, c.queue[c.head + j]) else Stop(first + j))
  {
    if rank >= c.size then Seeded(c, [])
    else if rank == MASTER then SeedFrom(c, rank + 1)
    else if Working(c.head) then
      var rest := SeedFrom(c.(head := c.head + 1), rank + 1);
      Seeded(rest.c, [Item(rank, c.queue[c.head])] + rest.sends)
    else
      var rest := SeedFrom(c.(finished := c.finished + 1), rank + 1);
      Seeded(rest.c, [Stop(rank)] + rest.sends)
  }

  /** The seed phase of a run with `size` processes: rank r (1 <= r < size)
      gets exactly one message, the item with uid r - 1 while the queue
      lasts and a sentinel after that. */
  function Seed(size: nat, rands: seq<nat>): (r: Seeded)
    requires size >= 1 && |rands| == WORKLOAD_SIZE
    ensures Consistent(r.c) && r.c.size == size
    ensures r.c.queue == GenerateQueue(rands) && Sum(r.c.workerCounts) == 0
    ensures r.c.head == Min(size - 1, WORKLOAD_SIZE)
    ensures r.c.finished == (size - 1) - r.c.head
    ensures |r.sends| == size - 1
    ensures forall rk :: 1 <= rk < size ==>
              r.sends[rk - 1].to == rk
              && (rk - 1 < WORKLOAD_SIZE ==> r.sends[rk - 1] == Item(rk, r.c.queue[rk - 1]) && r.sends[rk - 1].w.uid as int == rk - 1)
              && (rk - 1 >= WORKLOAD_SIZE ==> r.sends[rk - 1] == Stop(rk))
  {
    SeedFrom(Init(size, rands), 0)
  }

  /** The seed phase sends each queue item at most once, in queue order, and
      as many sentinels as it counts finished; rank r gets a sentinel exactly
      when it is beyond the number of items. */
  lemma SeedSends(size: nat, rands: seq<nat>, d: Seeded)
    requires size >= 1 && |rands| == WORKLOAD_SIZE && d == Seed(size, rands)
    ensures ItemUids(d.sends) == Range(0, d.c.head as nat)
    ensures StopCount(d.sends) == d.c.finished
    ensures forall rk: nat :: StopsTo(d.sends, rk) == (if 1 <= rk < size && rk - 1 >= WORKLOAD_SIZE then 1 else 0)
  {
    DealtItems(d.sends, d.c.head as nat, |d.sends|);
    DealtStops(d.sends, |d.sends|);
    assert d.sends[..|d.sends|] == d.sends;
  }

  /** The sends of a seed phase, read prefix by prefix: the first `h` are
      the items 0 .. h - 1 and the rest are sentinels. */
  lemma {:induction false} DealtItems(sends: seq<Send>, h: nat, k: nat)
    requires k <= |sends| && h <= |sends|
    requires forall j :: 0 <= j < |sends| ==>
               && (j < h ==> sends[j].Item? && sends[j].w.uid as int == j)
               && (j >= h ==> sends[j].Stop?)
    ensures ItemUids(sends[..k]) == Range(0, Min(k, h))
    ensures StopCount(sends[..k]) == k - Min(k, h)
  {
    if k > 0 {
      DealtItems(sends, h, k - 1);
      assert sends[..k] == sends[..k - 1] + [sends[k - 1]];
      LogSnoc(sends[..k - 1], sends[k - 1]);
      if k - 1 < h {
        RangeAppend(0, k - 1, k);
      }
    }
  }

  /** The sentinels of a seed phase, read prefix by prefix: send j goes to
      rank j + 1 and is a sentinel from slot `WORKLOAD_SIZE` on, so every
      rank beyond the items gets exactly one and no other rank any. */
  lemma {:induction false} DealtStops(sends: seq<Send>, k: nat)
    requires k <= |sends|
    requires forall j :: 0 <= j < |sends| ==> sends[j].to == j + 1 && (sends[j].Stop? <==> j >= WORKLOAD_SIZE)
    ensures forall rk: nat :: StopsTo(sends[..k], rk) == (if 1 <= rk <= k && rk - 1 >= WORKLOAD_SIZE then 1 else 0)
  {
    if k > 0 {
      DealtStops(sends, k - 1);
      assert sends[..k] == sends[..k - 1] + [sends[k - 1]];
      LogSnoc(sends[..k - 1], sends[k - 1]);
    }
  }

  /** `handle_workers` called with `blocking` set: exactly one message is
      consumed. A record `recv_workload` rejects changes nothing and gets no
      reply. A valid completion is stored in its queue slot, counted for its
      sender and its category, and answered with exactly one send: the
      record at the cursor (which advances) or, once the queue is
      exhausted, a sentinel, in which case the return value is 1. */
  function HandleWorkers(c: Coordinator, m: Message): (r: Handled)
    requires WellFormed(c) && Acceptable(c.size, m)
    ensures WellFormed(r.c) && r.c.size == c.size && r.c.finished == c.finished
    ensures r.added == 0 || r.added == 1
    ensures r.added == 1 <==> r.replies == [Stop(m.sender)]
    ensures m.w.uid as int >= WORKLOAD_SIZE ==> r == Handled(c, [], 0)
    ensures m.w.uid as int < WORKLOAD_SIZE ==>
              && |r.replies| == 1 && r.replies[0].to == m.sender
              && r.c.queue[m.w.uid] == m.w
              && (forall k :: 0 <= k < WORKLOAD_SIZE && k != m.w.uid as int ==> r.c.queue[k] == c.queue[k])
              && r.c.workerCounts[m.sender] == c.workerCounts[m.sender] + 1
              && (forall k :: 0 <= k < c.size && k != m.sender ==> r.c.workerCounts[k] == c.workerCounts[k])
              && r.c.typeCounts[m.w.i] == c.typeCounts[m.w.i] + 1
              && (forall k :: 0 <= k < NUM_TYPES && k != m.w.i as int ==> r.c.typeCounts[k] == c.typeCounts[k])
              && Sum(r.c.workerCounts) == Sum(c.workerCounts) + 1
              && Sum(r.c.typeCounts) == Sum(c.typeCounts) + 1
              && (Working(c.head) ==> r.replies == [Item(m.sender, r.c.queue[c.head])] && r.c.head == c.head + 1)
              && (!Working(c.head) ==> r.replies == [Stop(m.sender)] && r.c.head == c.head)
    ensures Consistent(c) ==> Consistent(r.c)
  {
    var id := RecvId(m.w, m.sender);
    if id == -1 then Handled(c, [], 0)
    else
      var stored := c.(queue := c.queue[m.w.uid as int := m.w]);
      var counted := UpdateStats(stored, m.w, m.sender);
      if Working(counted.head) then
        Handled(counted.(head := counted.head + 1), [Item(m.sender, counted.queue[counted.head])], 0)
      else
        Handled(counted, [Stop(m.sender)], 1)
  }

  /** One iteration of the coordinator's listening loop: `handle_workers`
      followed by `finished += added`, so `finished` grows by exactly the
      number of sentinels sent. */
  function MasterStep(c: Coordinator, m: Message): (r: Handled)
    requires WellFormed(c) && Acceptable(c.size, m)
    ensures r.replies == HandleWorkers(c, m).replies
    ensures r.c == HandleWorkers(c, m).c.(finished := r.c.finished)
    ensures r.c.finished == c.finished + StopCount(r.replies)
    ensures Consistent(c) ==> Consistent(r.c)
  {
    var h := HandleWorkers(c, m);
    Handled(h.c.(finished := h.c.finished + h.added), h.replies, h.added)
  }

  /** The coordinator's listening loop `while (finished < size - 1)`, fed
      the messages in arrival order. It stops early only once every worker
      is finished; otherwise it has consumed every message (the program
      would then block in the receive). The cursor never moves back nor
      past the queue, each valid completion is counted once in both tables
      and answered once, the items it sends are the next ones of the queue
      in order, and `finished` grows by the number of sentinels sent. */
  method MasterLoop(c0: Coordinator, msgs: seq<Message>) returns (c: Coordinator, replies: seq<Send>, consumed: nat)
    requires Consistent(c0)
    requires forall m <- msgs :: Acceptable(c0.size, m)
    ensures consumed <= |msgs|
    ensures consumed < |msgs| ==> c.finished >= c.size - 1
    ensures c.size == c0.size && Consistent(c)
    ensures c0.head <= c.head
    ensures c.finished == c0.finished + StopCount(replies)
    ensures |replies| == ValidCount(msgs[..consumed])
    ensures Sum(c.workerCounts) == Sum(c0.workerCounts) + |replies|
    ensures Sum(c.typeCounts) == Sum(c0.typeCounts) + |replies|
    ensures ItemUids(replies) == Range(c0.head as nat, c.head as nat)
  {
    c, replies, consumed := c0, [], 0;
    while consumed < |msgs| && c.finished < c.size - 1
      invariant consumed <= |msgs|
      invariant c.size == c0.size && Consistent(c)
      invariant c0.head <= c.head
      invariant c.finished == c0.finished + StopCount(replies)
      invariant |replies| == ValidCount(msgs[..consumed])
      invariant Sum(c.workerCounts) == Sum(c0.workerCounts) + |replies|
      invariant ItemUids(replies) == Range(c0.head as nat, c.head as nat)
    {
      var m := msgs[consumed];
      assert m in msgs;
      var h := MasterStep(c, m);
      StepExtendsRun(c, m, replies, c0.head as nat);
      assert msgs[..consumed + 1][..consumed] == msgs[..consumed];
      replies := replies + h.replies;
      c := h.c;
      consumed := consumed + 1;
    }
  }

  /** One loop iteration extends the record of sends consistently: the item
      it sends, if any, is the one at the old cursor, and it replies once
      exactly when the message is valid. */
  lemma StepExtendsRun(c: Coordinator, m: Message, replies: seq<Send>, lo: nat)
    requires Consistent(c) && Acceptable(c.size, m)
    requires lo <= c.head && ItemUids(replies) == Range(lo, c.head as nat)
    ensures var h := MasterStep(c, m);
            && lo <= h.c.head
            && ItemUids(replies + h.replies) == Range(lo, h.c.head as nat)
            && StopCount(replies + h.replies) == StopCount(replies) + StopCount(h.replies)
            && |h.replies| == (if m.w.uid as int < WORKLOAD_SIZE then 1 else 0)
            && Sum(h.c.workerCounts) == Sum(c.workerCounts) + |h.replies|
  {
    var h := MasterStep(c, m);
    if m.w.uid as int < WORKLOAD_SIZE {
      var x := h.replies[0];
      assert h.replies == [x];
      LogSnoc(replies, x);
      if Working(c.head) {
        assert x == Item(m.sender, h.c.queue[c.head]);
        assert h.c.queue[c.head].uid as int == c.head;
        RangeAppend(lo, c.head as nat, c.head as nat + 1);
      }
    } else {
      assert replies + h.replies == replies;
    }
  }

  /** A whole coordinator run: the seed phase, then the listening loop over
      the messages in arrival order. No item is ever sent twice: the items
      sent, over the whole run, are the queue's uids 0, 1, ... in order, up
      to the final cursor; `finished` is the number of sentinels sent; and
      the statistics count exactly the valid completions received. */
  method RunCoordinator(size: nat, rands: seq<nat>, msgs: seq<Message>) returns (c: Coordinator, sends: seq<Send>, consumed: nat)
    requires size >= 1 && |rands| == WORKLOAD_SIZE
    requires forall m <- msgs :: Acceptable(size, m)
    ensures Consistent(c) && c.size == size
    ensures consumed <= |msgs|
    ensures consumed < |msgs| ==> c.finished >= size - 1
    ensures ItemUids(sends) == Range(0, c.head as nat)
    ensures c.finished == StopCount(sends)
    ensures Sum(c.workerCounts) == ValidCount(msgs[..consumed])
    ensures Sum(c.typeCounts) == ValidCount(msgs[..consumed])
  {
    var seeded := Seed(size, rands);
    SeedSends(size, rands, seeded);
    var replies;
    c, replies, consumed := MasterLoop(seeded.c, msgs);
    sends := seeded.sends + replies;
    ItemUidsAppend(seeded.sends, replies);
    StopCountAppend(seeded.sends, replies);
    RangeAppend(0, seeded.c.head as nat, c.head as nat);
  }

  /** The code does not remember which completions it has seen: the same
      valid completion delivered twice is stored, counted and answered twice. */
  lemma DuplicateCompletionCountedTwice(c: Coordinator, m: Message)
    requires WellFormed(c) && Acceptable(c.size, m)
    requires m.w.uid as int < WORKLOAD_SIZE
    ensures var twice := HandleWorkers(HandleWorkers(c, m).c, m);
            && twice.c.workerCounts[m.sender] == c.workerCounts[m.sender] + 2
            && Sum(twice.c.workerCounts) == Sum(c.workerCounts) + 2
            && |twice.replies| == 1
  {
  }
}

=== FILE: protocol.dfy ===
/** The whole run as one closed system: the coordinator, one worker per
    rank and a point-to-point channel in each direction between the
    coordinator and every worker. Which process moves next is an arbitrary
    schedule of events; the coordinator's receive from any source becomes
    the choice of the rank whose report it takes. `Launch` starts a run
    from the seed loop that deals the record at the cursor, and
    `LaunchAsWritten` from the loop as written (see `SeedAsWritten`); the
    progress results hold from both. */
module Protocol {
  import opened Workloads
  import opened Tally
  import opened Dispatch
  import opened Workers
  import SeedAsWritten

  /** `down[r]` holds the records in flight from the coordinator to rank r,
      `up[r]` those from rank r to the coordinator, oldest first. `sent`
      records every send of the coordinator, in order; it is an observation
      of the run, not state the program keeps. */
  datatype System = System(
    master: Coordinator,
    workers: seq<Worker>,
    down: seq<seq<Workload>>,
    up: seq<seq<Workload>>,
    sent: seq<Send>)

  /** A worker taking the record waiting for it (with the elapsed time its
      computation measures), or the coordinator taking the report waiting
      from one rank. */
  datatype Event = WorkerTurn(rank: nat, elapsed: real) | MasterTurn(rank: nat)

  /** Where a rank stands from the coordinator's side: the coordinator
      itself, a worker holding an item (assigned, computing or reporting),
      or a worker that has been sent its sentinel. */
  datatype Status = Coordinating | Holding | Stopped

  predicate Shaped(s: System) {
    && |s.workers| == s.master.size
    && |s.down| == s.master.size
    && |s.up| == s.master.size
    && WellFormed(s.master)
  }

  /** A record of the queue: a uid `recv_workload` accepts and a category
      `update_stats` can index with. */
  predicate IsItem(w: Workload) {
    w.uid as int < WORKLOAD_SIZE && w.i as int < NUM_TYPES
  }

  /** The shapes a rank can be in: the coordinator talks to no one through
      its own channels; a worker either has one record waiting for it (an
      item or the sentinel), or one report on its way back, or has left its
      loop with both channels empty. */
  predicate RankOk(s: System, r: nat)
    requires Shaped(s) && r < s.master.size
  {
    var wk := s.workers[r];
    var d := s.down[r];
    var u := s.up[r];
    if r == MASTER then d == [] && u == []
    else
      || (Working(wk.head) && |d| == 1 && u == [] && (IsItem(d[0]) || d[0] == Sentinel()))
      || (Working(wk.head) && d == [] && |u| == 1 && IsItem(u[0]))
      || (!Working(wk.head) && d == [] && u == [])
  }

  function StatusOf(s: System, r: nat): Status
    requires Shaped(s) && r < s.master.size
  {
    if r == MASTER then Coordinating
    else if s.up[r] != [] || (s.down[r] != [] && s.down[r][0] != Sentinel()) then Holding
    else Stopped
  }

  function Statuses(s: System): (t: seq<Status>)
    requires Shaped(s)
    ensures |t| == s.master.size
  {
    seq(s.master.size, r requires 0 <= r < s.master.size => StatusOf(s, r))
  }

  /** Every rank is in one of the shapes `RankOk` allows. */
  ghost predicate RanksOk(s: System)
    requires Shaped(s)
  {
    forall r: nat :: r < s.master.size ==> RankOk(s, r)
  }

  /** `finished` counts the ranks sent a sentinel; completions counted plus
      items held equal the items dealt; a sentinel is only ever sent once
      the queue is exhausted. */
  predicate Tallies(s: System)
    requires Shaped(s)
  {
    && s.master.finished == Count(Statuses(s), Stopped)
    && Sum(s.master.workerCounts) + Count(Statuses(s), Holding) == s.master.head
    && (s.master.finished > 0 ==> s.master.head == WORKLOAD_SIZE)
  }

  /** The items sent so far are uids 0 .. head - 1, each once, in order; and
      each rank has been sent exactly one sentinel if it is stopped, none
      otherwise. */
  ghost predicate LogOk(s: System)
    requires Shaped(s) && Consistent(s.master)
  {
    && ItemUids(s.sent) == Range(0, s.master.head as nat)
    && (forall r: nat :: StopsTo(s.sent, r) == (if r < s.master.size && StatusOf(s, r) == Stopped then 1 else 0))
  }

  /** The part of the invariant that speaks of the processes and the
      coordinator's counters only, not of the log of sends. It is all that
      progress and termination need, and the seed loop as written
      establishes it too. */
  ghost predicate Live(s: System) {
    && Shaped(s)
    && Consistent(s.master)
    && s.master.size >= 1
    && RanksOk(s)
    && Tallies(s)
  }

  /** The invariant of the run. */
  ghost predicate Inv(s: System) {
    Live(s) && LogOk(s)
  }

  /** The records of some sends as they go on the wire. */
  function Wires(sends: seq<Send>): (ws: seq<Workload>)
    ensures |ws| == |sends|
    ensures forall k :: 0 <= k < |sends| ==> ws[k] == Wire(sends[k])
  {
    seq(|sends|, k requires 0 <= k < |sends| => Wire(sends[k]))
  }

  /** A worker can move when it is still in its loop and a record waits for
      it; the coordinator can move while it is still listening and a report
      waits from that rank. */
  predicate Enabled(s: System, e: Event)
    requires Shaped(s)
  {
    match e
    case WorkerTurn(rank, _) =>
      rank < s.master.size && Working(s.workers[rank].head) && s.down[rank] != []
    case MasterTurn(rank) =>
      s.master.finished < s.master.size - 1 && rank < s.master.size && s.up[rank] != []
  }

  /** The start of the run: the coordinator after its seed phase, every
      worker waiting for its first record, which is on its way. */
  function Started(size: nat, rands: seq<nat>): System
    requires size >= 1 && |rands| == WORKLOAD_SIZE
  {
    var d := Seed(size, rands);
    System(d.c, seq(size, _ => Start()), FirstRecords(d), seq(size, _ => []), d.sends)
  }

  /** The start of the run, a state of the invariant. */
  function Launch(size: nat, rands: seq<nat>): (s: System)
    requires size >= 1 && |rands| == WORKLOAD_SIZE
    ensures Inv(s)
    ensures s.master.head == Min(size - 1, WORKLOAD_SIZE)
    ensures s.sent == Seed(size, rands).sends
  {
    LaunchInv(size, rands);
    Started(size, rands)
  }

  /** The channels towards the workers right after the seed phase: the
      coordinator's own is empty and rank r's holds what rank r was sent. */
  function FirstRecords(d: Seeded): (down: seq<seq<Workload>>)
    requires |d.sends| == d.c.size - 1
    ensures |down| == d.c.size
    ensures d.c.size >= 1 ==> down[MASTER] == []
    ensures forall r :: 1 <= r < d.c.size ==> down[r] == [Wire(d.sends[r - 1])]
  {
    seq(d.c.size, r requires 0 <= r < d.c.size => if r == MASTER then [] else [Wire(d.sends[r - 1])])
  }

  /** The seed phase leaves the run in a state of the invariant, with the
      cursor past the items dealt to the first workers. */
  lemma LaunchInv(size: nat, rands: seq<nat>)
    requires size >= 1 && |rands| == WORKLOAD_SIZE
    ensures Inv(Started(size, rands))
    ensures Started(size, rands).master.head == Min(size - 1, WORKLOAD_SIZE)
  {
    var s := Started(size, rands);
    LaunchStatuses(size, rands);
    assert Tallies(s) by {
      StatusCounts(Statuses(s));
    }
    assert LogOk(s) by {
      SeedSends(size, rands, Seed(size, rands));
    }
  }

  /** Right after the seed phase the first `WORKLOAD_SIZE` workers hold an
      item and the others are stopped. */
  lemma LaunchStatuses(size: nat, rands: seq<nat>)
    requires size >= 1 && |rands| == WORKLOAD_SIZE
    ensures var s := Started(size, rands);
            && Shaped(s) && Consistent(s.master) && RanksOk(s)
            && forall r: nat :: r < size ==>
                 StatusOf(s, r) == (if r == MASTER then Coordinating else if r - 1 < WORKLOAD_SIZE then Holding else Stopped)
  {
    var d := Seed(size, rands);
    var s := Started(size, rands);
    forall r: nat | r < size
      ensures RankOk(s, r)
      ensures StatusOf(s, r) == (if r == MASTER then Coordinating else if r - 1 < WORKLOAD_SIZE then Holding else Stopped)
    {
      if r != MASTER {
        LaunchRank(d, s, r);
      }
    }
  }

  /** Right after the seed phase, a worker has the one record it was sent
      waiting for it: an item while the queue lasted, the sentinel after. */
  lemma LaunchRank(d: Seeded, s: System, r: nat)
    requires Shaped(s) && s.master == d.c && Consistent(d.c)
    requires 1 <= r < d.c.size && |d.sends| == d.c.size - 1
    requires s.workers[r] == Start() && s.up[r] == []
    requires s.down[r] == [Wire(d.sends[r - 1])]
    requires r - 1 < WORKLOAD_SIZE ==> d.sends[r - 1] == Item(r, d.c.queue[r - 1])
    requires r - 1 >= WORKLOAD_SIZE ==> d.sends[r - 1] == Stop(r)
    ensures RankOk(s, r)
    ensures StatusOf(s, r) == if r - 1 < WORKLOAD_SIZE then Holding else Stopped
  {
    if r - 1 < WORKLOAD_SIZE {
      var x := d.c.queue[r - 1];
      assert s.down[r] == [x];
      assert x.uid as int == r - 1 && x.i as int < NUM_TYPES;
      assert x != Sentinel();
    }
  }

  /** The statuses right after the seed phase: the first `WORKLOAD_SIZE`
      workers hold an item and the others are stopped. */
  lemma {:induction false} StatusCounts(t: seq<Status>)
    requires |t| >= 1 && t[0] == Coordinating
    requires forall r :: 1 <= r < |t| ==> t[r] == (if r - 1 < WORKLOAD_SIZE then Holding else Stopped)
    ensures Count(t, Holding) == Min(|t| - 1, WORKLOAD_SIZE)
    ensures Count(t, Stopped) == |t| - 1 - Min(|t| - 1, WORKLOAD_SIZE)
  {
    if |t| > 1 {
      StatusCounts(t[..|t| - 1]);
    }
  }

  /** The start of a run whose seed phase is the loop as written, for a run
      with no more workers than items (with more, the loop reads past the
      end of the queue): rank r has slot r waiting for it. */
  function StartedAsWritten(size: nat, rands: seq<nat>): System
    requires 1 <= size <= WORKLOAD_SIZE && |rands| == WORKLOAD_SIZE
  {
    var d := SeedAsWritten.SeedAsWritten(size, rands);
    System(d.c, seq(size, _ => Start()), FirstRecords(Seeded(d.c, d.sends)), seq(size, _ => []), d.sends)
  }

  /** The start of a run with the seed loop as written: it has the
      coordinator state of the corrected start and satisfies the part of the
      invariant that does not speak of the log, but with two processes or
      more it breaks the log clause, since uid 0 is never dealt. */
  function LaunchAsWritten(size: nat, rands: seq<nat>): (s: System)
    requires 1 <= size <= WORKLOAD_SIZE && |rands| == WORKLOAD_SIZE
    ensures Live(s)
    ensures s.master == Seed(size, rands).c
    ensures size >= 2 ==> !LogOk(s)
  {
    AsWrittenLaunchLive(size, rands, StartedAsWritten(size, rands));
    StartedAsWritten(size, rands)
  }

  /** Every worker of the as-written start holds an item, so the counters
      balance; the last item logged carries the cursor's own uid, which the
      log clause does not allow. */
  lemma AsWrittenLaunchLive(size: nat, rands: seq<nat>, s: System)
    requires 1 <= size <= WORKLOAD_SIZE && |rands| == WORKLOAD_SIZE
    requires s == StartedAsWritten(size, rands)
    ensures Live(s)
    ensures s.master == Seed(size, rands).c
    ensures size >= 2 ==> !LogOk(s)
  {
    AsWrittenLaunchStatuses(size, rands, s);
    StatusCounts(Statuses(s));
    if size >= 2 {
      SeedAsWritten.AsWrittenSkipsSlotZero(size, rands);
      LogPastCursor(s);
    }
  }

  /** Right after the seed phase as written every worker holds an item. */
  lemma AsWrittenLaunchStatuses(size: nat, rands: seq<nat>, s: System)
    requires 1 <= size <= WORKLOAD_SIZE && |rands| == WORKLOAD_SIZE
    requires s == StartedAsWritten(size, rands)
    ensures Shaped(s) && Consistent(s.master) && RanksOk(s)
    ensures s.master == Seed(size, rands).c
    ensures forall r: nat :: r < size ==> StatusOf(s, r) == (if r == MASTER then Coordinating else Holding)
  {
    var d := SeedAsWritten.SeedAsWritten(size, rands);
    SeedAsWritten.AsWrittenSameState(size, rands);
    assert s.master == d.c == Seed(size, rands).c;
    forall r: nat | r < size
      ensures RankOk(s, r)
      ensures StatusOf(s, r) == (if r == MASTER then Coordinating else Holding)
    {
      if r != MASTER {
        AsWrittenRank(d, s, r);
      }
    }
  }

  /** A log whose last send is the item with the cursor's own uid breaks the
      log clause, which allows only uids below the cursor. */
  lemma LogPastCursor(s: System)
    requires Shaped(s) && Consistent(s.master) && |s.sent| >= 1
    requires s.sent[|s.sent| - 1].Item? && s.sent[|s.sent| - 1].w.uid as int == s.master.head
    ensures !LogOk(s)
  {
    var n := |s.sent|;
    var h := s.master.head as nat;
    assert s.sent == s.sent[..n - 1] + [s.sent[n - 1]];
    var u := ItemUids(s.sent);
    assert u == ItemUids(s.sent[..n - 1]) + [h];
    assert u[|u| - 1] == h;
  }

  /** Right after the seed phase as written, worker r has slot r waiting
      for it, an item. */
  lemma AsWrittenRank(d: SeedAsWritten.Dealt, s: System, r: nat)
    requires d.Dealt? && Shaped(s) && s.master == d.c && Consistent(d.c)
    requires 1 <= r < d.c.size <= WORKLOAD_SIZE && |d.sends| == d.c.size - 1
    requires s.workers[r] == Start() && s.up[r] == []
    requires s.down[r] == [Wire(d.sends[r - 1])]
    requires d.sends[r - 1] == Item(r, d.c.queue[r])
    ensures RankOk(s, r)
    ensures StatusOf(s, r) == Holding
  {
    var x := d.c.queue[r];
    assert s.down[r] == [x];
    assert x.uid as int == r && x.i as int < NUM_TYPES;
    assert x != Sentinel();
  }

  /** A worker taking the record waiting for it keeps the invariant: an
      item turns into a report on its way back, the sentinel makes the
      worker leave its loop; no rank changes status. */
  lemma WorkerTurnKeepsInv(s: System, rank: nat, elapsed: real)
    requires Live(s) && Enabled(s, WorkerTurn(rank, elapsed))
    ensures var react := Receive(s.workers[rank], s.down[rank][0], elapsed);
            var s' := s.(workers := s.workers[rank := react.next],
                         down := s.down[rank := s.down[rank][1..]],
                         up := s.up[rank := s.up[rank] + react.reply]);
            && Live(s') && Statuses(s') == Statuses(s)
            && (Inv(s) ==> Inv(s'))
  {
    var react := Receive(s.workers[rank], s.down[rank][0], elapsed);
    var s' := s.(workers := s.workers[rank := react.next],
                 down := s.down[rank := s.down[rank][1..]],
                 up := s.up[rank := s.up[rank] + react.reply]);
    assert RankOk(s, rank);
    ReceiverKept(s, s', rank, elapsed);
    OthersKept(s, s', rank);
    StatusesAfter(s, s', rank);
    assert Statuses(s') == Statuses(s);
    assert Tallies(s');
  }

  /** The worker that takes its record stays in a shape `RankOk` allows and
      keeps its status: an item comes back as a report, the sentinel leaves
      both channels empty and the worker out of its loop. */
  lemma ReceiverKept(s: System, s': System, rank: nat, elapsed: real)
    requires Shaped(s) && Shaped(s') && s'.master.size == s.master.size
    requires rank < s.master.size && RankOk(s, rank)
    requires Working(s.workers[rank].head) && s.down[rank] != []
    requires var react := Receive(s.workers[rank], s.down[rank][0], elapsed);
             && s'.workers[rank] == react.next
             && s'.down[rank] == s.down[rank][1..]
             && s'.up[rank] == s.up[rank] + react.reply
    ensures RankOk(s', rank) && StatusOf(s', rank) == StatusOf(s, rank)
  {
    var react := Receive(s.workers[rank], s.down[rank][0], elapsed);
    var x := s.down[rank][0];
    assert rank != MASTER;
    assert s.down[rank] == [x] && s.up[rank] == [];
    if IsItem(x) {
      assert x.uid != SENTINEL_UID;
      assert Working(react.next.head);
      assert IsItem(react.next.local);
    } else {
      assert x == Sentinel();
      assert !Working(react.next.head);
    }
  }

  /** The coordinator taking one worker's report keeps the invariant: the
      worker is answered with the next item, or, once the queue is
      exhausted, with its one sentinel. */
  lemma MasterTurnKeepsInv(s: System, rank: nat)
    requires Live(s) && Enabled(s, MasterTurn(rank))
    ensures Acceptable(s.master.size, Message(rank, s.up[rank][0]))
    ensures Live(AfterMasterTurn(s, rank))
    ensures Inv(s) ==> Inv(AfterMasterTurn(s, rank))
  {
    assert RankOk(s, rank);
    if Working(s.master.head) {
      MasterDealsItem(s, rank);
    } else {
      MasterDealsStop(s, rank);
    }
  }

  /** The state after the coordinator takes rank `rank`'s report. */
  function AfterMasterTurn(s: System, rank: nat): System
    requires Live(s) && Enabled(s, MasterTurn(rank))
  {
    assert RankOk(s, rank);
    var h := MasterStep(s.master, Message(rank, s.up[rank][0]));
    s.(master := h.c,
       up := s.up[rank := s.up[rank][1..]],
       down := s.down[rank := s.down[rank] + Wires(h.replies)],
       sent := s.sent + h.replies)
  }

  /** Facts common to both answers: the report was a valid item from a
      holding worker, one reply goes back to it, and no other rank moves. */
  lemma MasterTurnFrame(s: System, rank: nat)
    requires Live(s) && Enabled(s, MasterTurn(rank))
    ensures RankOk(s, rank) && rank != MASTER
    ensures IsItem(s.up[rank][0]) && s.up[rank] == [s.up[rank][0]] && s.down[rank] == []
    ensures StatusOf(s, rank) == Holding
    ensures var s' := AfterMasterTurn(s, rank);
            && Shaped(s')
            && Consistent(s'.master)
            && s'.up[rank] == [] && |s'.sent| == |s.sent| + 1 && s'.sent[..|s.sent|] == s.sent
            && s'.down[rank] == [Wire(s'.sent[|s.sent|])]
            && s'.sent[|s.sent|].to == rank
            && Sum(s'.master.workerCounts) == Sum(s.master.workerCounts) + 1
            && (forall r: nat :: r < s.master.size && r != rank ==> RankOk(s', r) && StatusOf(s', r) == StatusOf(s, r))
  {
    assert RankOk(s, rank);
    var s' := AfterMasterTurn(s, rank);
    OthersKept(s, s', rank);
  }

  /** Ranks whose channels a move leaves alone keep their shape and status. */
  lemma OthersKept(s: System, s': System, rank: nat)
    requires Shaped(s) && Shaped(s') && s'.master.size == s.master.size && RanksOk(s)
    requires forall r :: 0 <= r < s.master.size && r != rank ==>
               s'.workers[r] == s.workers[r] && s'.down[r] == s.down[r] && s'.up[r] == s.up[r]
    ensures forall r: nat :: r < s.master.size && r != rank ==> RankOk(s', r) && StatusOf(s', r) == StatusOf(s, r)
  {
    forall r: nat | r < s.master.size && r != rank
      ensures RankOk(s', r) && StatusOf(s', r) == StatusOf(s, r)
    {
      assert RankOk(s, r);
    }
  }

  /** A move that changes the status of rank `rank` alone changes the
      sequence of statuses in that one place. */
  lemma StatusesAfter(s: System, s': System, rank: nat)
    requires Shaped(s) && Shaped(s') && s'.master.size == s.master.size && rank < s.master.size
    requires forall r: nat :: r < s.master.size && r != rank ==> StatusOf(s', r) == StatusOf(s, r)
    ensures Statuses(s') == Statuses(s)[rank := StatusOf(s', rank)]
  {
  }

  /** While the queue lasts, the worker is answered with the item at the
      cursor: it keeps holding an item and the cursor advances. */
  lemma MasterDealsItem(s: System, rank: nat)
    requires Live(s) && Enabled(s, MasterTurn(rank)) && Working(s.master.head)
    ensures var s' := AfterMasterTurn(s, rank);
            && Live(s') && (Inv(s) ==> Inv(s'))
            && s'.sent == s.sent + [Item(rank, s'.master.queue[s.master.head])]
            && s'.master.queue[s.master.head].uid as int == s.master.head
            && s'.master.head == s.master.head + 1 && s'.master.finished == s.master.finished
            && StatusOf(s', rank) == Holding && Statuses(s') == Statuses(s)
  {
    MasterTurnFrame(s, rank);
    var s' := AfterMasterTurn(s, rank);
    var x := s'.sent[|s.sent|];
    assert s'.sent == s.sent + [x];
    var w := s'.master.queue[s.master.head];
    assert x == Item(rank, w);
    assert s'.master.head == s.master.head + 1 && s'.master.finished == s.master.finished;
    assert IsItem(w) && w.uid as int == s.master.head;
    assert RankOk(s', rank) && StatusOf(s', rank) == Holding;
    assert RanksOk(s');
    StatusesAfter(s, s', rank);
    assert Statuses(s') == Statuses(s);
    assert Tallies(s');
    if Inv(s) {
      ItemKeepsLog(s, s', rank, w);
    }
  }

  /** Dealing the item at the cursor extends the items sent by the next uid
      and sends no sentinel. */
  lemma ItemKeepsLog(s: System, s': System, rank: nat, w: Workload)
    requires Shaped(s) && Consistent(s.master) && LogOk(s)
    requires Shaped(s') && Consistent(s'.master) && s'.master.size == s.master.size
    requires s'.sent == s.sent + [Item(rank, w)]
    requires w.uid as int == s.master.head && s'.master.head == s.master.head + 1
    requires forall r: nat :: r < s.master.size ==> StatusOf(s', r) == StatusOf(s, r)
    ensures LogOk(s')
  {
    LogSnoc(s.sent, Item(rank, w));
    RangeAppend(0, s.master.head as nat, s'.master.head as nat);
  }

  /** Once the queue is exhausted, the worker is answered with its sentinel:
      it becomes stopped and `finished` counts it. */
  lemma MasterDealsStop(s: System, rank: nat)
    requires Live(s) && Enabled(s, MasterTurn(rank)) && !Working(s.master.head)
    ensures var s' := AfterMasterTurn(s, rank);
            && Live(s') && (Inv(s) ==> Inv(s'))
            && s'.sent == s.sent + [Stop(rank)]
            && s'.master.head == s.master.head == WORKLOAD_SIZE
            && s'.master.finished == s.master.finished + 1
            && StatusOf(s, rank) == Holding && StatusOf(s', rank) == Stopped
            && Statuses(s') == Statuses(s)[rank := Stopped]
  {
    MasterTurnFrame(s, rank);
    var s' := AfterMasterTurn(s, rank);
    var x := s'.sent[|s.sent|];
    assert s'.sent == s.sent + [x];
    assert x == Stop(rank);
    assert s'.master.head == s.master.head == WORKLOAD_SIZE;
    assert s'.master.finished == s.master.finished + 1;
    assert RankOk(s', rank) && StatusOf(s', rank) == Stopped;
    assert RanksOk(s');
    StatusesAfter(s, s', rank);
    StopKeepsTallies(s, s', rank);
    if Inv(s) {
      StopKeepsLog(s, s', rank);
    }
  }

  /** A holding worker turning stopped moves one rank from one count to the
      other, and `finished` counts it. */
  lemma StopKeepsTallies(s: System, s': System, rank: nat)
    requires Shaped(s) && Shaped(s') && Tallies(s) && rank < s.master.size
    requires StatusOf(s, rank) == Holding
    requires Statuses(s') == Statuses(s)[rank := Stopped]
    requires s'.master.head == s.master.head == WORKLOAD_SIZE
    requires s'.master.finished == s.master.finished + 1
    requires Sum(s'.master.workerCounts) == Sum(s.master.workerCounts) + 1
    ensures Tallies(s')
  {
    CountUpdate(Statuses(s), rank, Stopped, Stopped);
    CountUpdate(Statuses(s), rank, Stopped, Holding);
  }

  /** The sentinel sent to a holding worker is the first its rank gets. */
  lemma StopKeepsLog(s: System, s': System, rank: nat)
    requires Shaped(s) && Consistent(s.master) && LogOk(s)
    requires Shaped(s') && Consistent(s'.master) && s'.master.size == s.master.size
    requires s'.sent == s.sent + [Stop(rank)] && s'.master.head == s.master.head
    requires rank < s.master.size && StatusOf(s, rank) == Holding && StatusOf(s', rank) == Stopped
    requires forall r: nat :: r < s.master.size && r != rank ==> StatusOf(s', r) == StatusOf(s, r)
    ensures LogOk(s')
  {
    LogSnoc(s.sent, Stop(rank));
  }

  /** One event of the schedule. An event that is not enabled changes
      nothing; the log of sends only grows. */
  function Step(s: System, e: Event): (r: System)
    requires Live(s)
    ensures Live(r)
    ensures Inv(s) ==> Inv(r)
    ensures r.master.size == s.master.size
    ensures s.sent <= r.sent
    ensures !Enabled(s, e) ==> r == s
  {
    if !Enabled(s, e) then s
    else
      match e
      case WorkerTurn(rank, elapsed) =>
        WorkerTurnKeepsInv(s, rank, elapsed);
        var react := Receive(s.workers[rank], s.down[rank][0], elapsed);
        s.(workers := s.workers[rank := react.next],
           down := s.down[rank := s.down[rank][1..]],
           up := s.up[rank := s.up[rank] + react.reply])
      case MasterTurn(rank) =>
        MasterTurnKeepsInv(s, rank);
        AfterMasterTurn(s, rank)
  }

  /** A schedule of events, applied in order. */
  function Run(s: System, events: seq<Event>): (r: System)
    requires Live(s)
    ensures Live(r)
    ensures Inv(s) ==> Inv(r)
    ensures r.master.size == s.master.size
    ensures s.sent <= r.sent
    decreases |events|
  {
    if events == [] then s
    else Run(Step(s, events[0]), events[1..])
  }

  /** While some worker has not been sent its sentinel, some process can
      move: the run never deadlocks before the coordinator is done. */
  lemma NoDeadlock(s: System)
    requires Live(s) && s.master.finished < s.master.size - 1
    ensures exists r: nat :: 1 <= r < s.master.size && (Enabled(s, WorkerTurn(r, 0.0)) || Enabled(s, MasterTurn(r)))
  {
    var t := Statuses(s);
    if forall k :: 1 <= k < |t| ==> t[k] == Stopped {
      CountAllOthers(t, Stopped);
      assert false;
    }
    var k :| 1 <= k < |t| && t[k] != Stopped;
    assert StatusOf(s, k) == Holding;
    assert RankOk(s, k);
    assert Enabled(s, WorkerTurn(k, 0.0)) || Enabled(s, MasterTurn(k));
  }

  /** When the coordinator leaves its loop, the run has done what it
      promises: every worker has been sent exactly one sentinel and no other
      rank any; every item of the queue has been sent exactly once, in queue
      order; each table has counted 1024 completions; and no report is left
      unread. */
  lemma CoordinatorDone(s: System)
    requires Inv(s) && s.master.size >= 2
    requires s.master.finished >= s.master.size - 1
    ensures s.master.finished == s.master.size - 1
    ensures forall r: nat :: StopsTo(s.sent, r) == (if 1 <= r < s.master.size then 1 else 0)
    ensures s.master.head == WORKLOAD_SIZE
    ensures ItemUids(s.sent) == Range(0, WORKLOAD_SIZE)
    ensures Sum(s.master.workerCounts) == WORKLOAD_SIZE && Sum(s.master.typeCounts) == WORKLOAD_SIZE
    ensures forall r :: 0 <= r < s.master.size ==> s.up[r] == []
  {
    var t := Statuses(s);
    AllWorkersStopped(s);
    assert forall k :: 0 <= k < |t| ==> t[k] != Holding;
    CountAbsent(t, Holding);
    forall r: nat
      ensures StopsTo(s.sent, r) == (if 1 <= r < s.master.size then 1 else 0)
    {
      if 1 <= r < s.master.size {
        assert StatusOf(s, r) == t[r];
      }
    }
    forall r | 0 <= r < s.master.size
      ensures s.up[r] == []
    {
      assert RankOk(s, r);
      assert StatusOf(s, r) == t[r];
    }
  }

  /** `finished` never exceeds the number of workers, and reaching it means
      every worker has been sent its sentinel. */
  lemma AllWorkersStopped(s: System)
    requires Live(s)
    ensures s.master.finished <= s.master.size - 1
    ensures s.master.finished == s.master.size - 1 ==> forall k :: 1 <= k < s.master.size ==> Statuses(s)[k] == Stopped
  {
    var t := Statuses(s);
    assert t[0] == Coordinating;
    CountMissing(t, 0, Stopped);
    if s.master.finished == s.master.size - 1 {
      CountAllButFirst(t, Stopped);
    }
  }

  /** When no process can move any more, every worker has left its loop and
      the coordinator has left its own. */
  lemma Quiescent(s: System)
    requires Live(s)
    requires forall r: nat, e: real :: !Enabled(s, WorkerTurn(r, e)) && !Enabled(s, MasterTurn(r))
    ensures s.master.finished == s.master.size - 1
    ensures forall r :: 1 <= r < s.master.size ==> !Working(s.workers[r].head)
  {
    AllWorkersStopped(s);
    if s.master.finished < s.master.size - 1 {
      NoDeadlock(s);
      assert false;
    }
    forall r | 1 <= r < s.master.size
      ensures !Working(s.workers[r].head)
    {
      assert RankOk(s, r);
      assert StatusOf(s, r) == Statuses(s)[r] == Stopped;
      assert !Enabled(s, WorkerTurn(r, 0.0));
    }
  }

  /** The end-to-end promise for any schedule from the start of a run: the
      seed phase's sends stay at the head of the log, `finished` never
      exceeds the number of workers, and once the coordinator has left its
      loop each worker has received exactly one sentinel, every item has
      been dealt exactly once, and each table has counted 1024
      completions. */
  lemma RunDeliversEverything(size: nat, rands: seq<nat>, events: seq<Event>)
    requires size >= 2 && |rands| == WORKLOAD_SIZE
    ensures var s := Run(Launch(size, rands), events);
            && Seed(size, rands).sends <= s.sent
            && s.master.finished <= size - 1
            && (s.master.finished == size - 1 ==>
                  && (forall r: nat :: StopsTo(s.sent, r) == (if 1 <= r < size then 1 else 0))
                  && ItemUids(s.sent) == Range(0, WORKLOAD_SIZE)
                  && Sum(s.master.workerCounts) == WORKLOAD_SIZE)
  {
    var s := Run(Launch(size, rands), events);
    AllWorkersStopped(s);
    if s.master.finished == size - 1 {
      CoordinatorDone(s);
    }
  }

  /** What needs no log holds for the code as written too: under any
      schedule from the as-written start, `finished` never exceeds the
      number of workers; while it is below, some process can move; and once
      it reaches it, every worker has been sent its sentinel. */
  lemma AsWrittenRunStopsEveryWorker(size: nat, rands: seq<nat>, events: seq<Event>)
    requires 2 <= size <= WORKLOAD_SIZE && |rands| == WORKLOAD_SIZE
    ensures var s := Run(LaunchAsWritten(size, rands), events);
            && s.master.size == size
            && s.master.finished <= size - 1
            && (s.master.finished < size - 1 ==>
                  exists r: nat :: 1 <= r < size && (Enabled(s, WorkerTurn(r, 0.0)) || Enabled(s, MasterTurn(r))))
            && (s.master.finished == size - 1 ==> forall k :: 1 <= k < size ==> Statuses(s)[k] == Stopped)
  {
    var s := Run(LaunchAsWritten(size, rands), events);
    AllWorkersStopped(s);
    if s.master.finished < size - 1 {
      NoDeadlock(s);
    }
  }
}

=== FILE: seed_as_written.dfy ===
/** The seed loop of dynamic_mpi.c exactly as written: while the queue
    lasts, rank i is sent `queue[i]` (the worker's rank used as the index)
    although the cursor advances as if `queue[queue_head]` had been sent.
    Reading past the end of the queue is an outcome of its own. */
module SeedAsWritten {
  import opened Workloads
  import opened Tally
  import opened Dispatch

  /** The seed loop's outcome: its state and sends, or the index of the
      first read past the end of the queue. */
  datatype Dealt = Dealt(c: Coordinator, sends: seq<Send>) | ReadPastEnd(index: nat)

  /** The loop of lines 89-102 from rank `rank` on: while the queue lasts,
      rank r is sent slot r, which may lie past the end of the queue. Every
      record dealt is the queue slot named by its recipient's rank, each
      rank from `rank` on (the coordinator's own excepted) is served once in
      rank order, an item while the cursor is working and a sentinel after,
      with the cursor and `finished` moving as in the corrected loop; a read
      past the end happens at a worker's rank that indexes beyond the
      queue. */
  function SeedAsWrittenFrom(c: Coordinator, rank: nat): (r: Dealt)
    requires WellFormed(c) && 0 <= c.head <= WORKLOAD_SIZE
    decreases c.size - rank
    ensures r.ReadPastEnd? ==> rank <= r.index < c.size && r.index >= |c.queue| && r.index != MASTER
    ensures r.Dealt? ==> forall j :: 0 <= j < |r.sends| ==> r.sends[j].to == (if rank == MASTER then 1 else rank) + j
    ensures r.Dealt? ==> forall j :: 0 <= j < |r.sends| && r.sends[j].Item? ==>
              r.sends[j].to < |c.queue| && r.sends[j].w == c.queue[r.sends[j].to]
    ensures var first := if rank == MASTER then 1 else rank;
            var n := if c.size > first then c.size - first else 0;
            r.Dealt? ==>
              && |r.sends| == n
              && forall j :: 0 <= j < n ==> (r.sends[j].Item? <==> c.head + j < WORKLOAD_SIZE)
  {
    if rank >= c.size then Dealt(c, [])
    else if rank == MASTER then SeedAsWrittenFrom(c, rank + 1)
    else if Working(c.head) then
      if rank < |c.queue| then
        match SeedAsWrittenFrom(c.(head := c.head + 1), rank + 1)
        case Dealt(c', rest) => Dealt(c', [Item(rank, c.queue[rank])] + rest)
        case ReadPastEnd(k) => ReadPastEnd(k)
      else ReadPastEnd(rank)
    else
      match SeedAsWrittenFrom(c.(finished := c.finished + 1), rank + 1)
      case Dealt(c', rest) => Dealt(c', [Stop(rank)] + rest)
      case ReadPastEnd(k) => ReadPastEnd(k)
  }

  /** Whenever the loop as written completes, from any state, it ends in the
      state the corrected loop ends in: the cursor and `finished` follow
      the closed forms of `SeedFrom`, and nothing else changes. */
  lemma {:induction false} AsWrittenBookkeeping(c: Coordinator, rank: nat)
    requires WellFormed(c) && 0 <= c.head <= WORKLOAD_SIZE
    decreases c.size - rank
    ensures var r := SeedAsWrittenFrom(c, rank);
            r.Dealt? ==> r.c == SeedFrom(c, rank).c
  {
    if rank >= c.size {
    } else if rank == MASTER {
      AsWrittenBookkeeping(c, rank + 1);
    } else if Working(c.head) {
      if rank < |c.queue| {
        AsWrittenBookkeeping(c.(head := c.head + 1), rank + 1);
      }
    } else {
      AsWrittenBookkeeping(c.(finished := c.finished + 1), rank + 1);
    }
  }

  /** The loop as written, from a rank whose cursor is in step with it (the
      cursor has advanced once per earlier worker, up to the end of the
      queue): it keeps the same bookkeeping as the loop that sends the
      record at the cursor and sends items and sentinels to the same ranks,
      but rank r gets slot r. It reads past the end exactly when rank
      `WORKLOAD_SIZE` is among the ranks still to serve, and reads
      `queue[WORKLOAD_SIZE]` then. */
  lemma {:induction false} AsWrittenInStep(c: Coordinator, rank: nat)
    requires WellFormed(c) && 1 <= rank && c.head == Min(rank - 1, WORKLOAD_SIZE)
    decreases c.size - rank
    ensures var r := SeedAsWrittenFrom(c, rank);
            && (r.ReadPastEnd? <==> rank <= WORKLOAD_SIZE < c.size)
            && (r.ReadPastEnd? ==> r.index == WORKLOAD_SIZE)
            && (r.Dealt? ==>
                  && r.c == SeedFrom(c, rank).c
                  && |r.sends| == (if c.size > rank then c.size - rank else 0)
                  && forall j :: 0 <= j < |r.sends| ==>
                       r.sends[j] == if rank + j < WORKLOAD_SIZE then Item(rank + j, c.queue[rank + j]) else Stop(rank + j))
  {
    if rank >= c.size {
    } else if Working(c.head) {
      if rank < |c.queue| {
        AsWrittenInStep(c.(head := c.head + 1), rank + 1);
      }
    } else {
      AsWrittenInStep(c.(finished := c.finished + 1), rank + 1);
    }
  }

  /** The loop as written from the coordinator's start: the facts
      `SeedAsWritten` promises, for any coordinator with its cursor at the
      head of the queue. */
  lemma AsWrittenFromStart(c: Coordinator, r: Dealt)
    requires Consistent(c) && c.size >= 1 && c.head == 0
    requires r == SeedAsWrittenFrom(c, 0)
    ensures r.ReadPastEnd? <==> c.size > WORKLOAD_SIZE
    ensures r.ReadPastEnd? ==> r.index == WORKLOAD_SIZE
    ensures r.Dealt? ==>
              && Consistent(r.c) && r.c.size == c.size && r.c.queue == c.queue
              && |r.sends| == c.size - 1
              && forall rk :: 1 <= rk < c.size ==> r.sends[rk - 1] == Item(rk, r.c.queue[rk]) && r.sends[rk - 1].w.uid as int == rk
  {
    AsWrittenInStep(c, 1);
    assert r == SeedAsWrittenFrom(c, 1);
    if r.Dealt? {
      forall rk | 1 <= rk < c.size
        ensures r.sends[rk - 1] == Item(rk, r.c.queue[rk]) && r.sends[rk - 1].w.uid as int == rk
      {
        var j := rk - 1;
        assert r.sends[j] == Item(1 + j, c.queue[1 + j]);
      }
    }
  }

  /** The seed phase as written, for a run of `size` processes. With fewer
      than `WORKLOAD_SIZE` workers, rank r gets the item in slot r, whose
      uid is r; with `WORKLOAD_SIZE` workers or more, rank `WORKLOAD_SIZE`
      is sent `queue[WORKLOAD_SIZE]`, one past the end of the queue. */
  function SeedAsWritten(size: nat, rands: seq<nat>): (r: Dealt)
    requires size >= 1 && |rands| == WORKLOAD_SIZE
    ensures r.ReadPastEnd? <==> size > WORKLOAD_SIZE
    ensures r.ReadPastEnd? ==> r.index == WORKLOAD_SIZE
    ensures r.Dealt? ==>
              && Consistent(r.c) && r.c.size == size
              && |r.sends| == size - 1
              && forall rk :: 1 <= rk < size ==> r.sends[rk - 1] == Item(rk, r.c.queue[rk]) && r.sends[rk - 1].w.uid as int == rk
  {
    var c := Init(size, rands);
    var r := SeedAsWrittenFrom(c, 0);
    AsWrittenFromStart(c, r);
    r
  }

  /** Apart from the payloads, the loop as written ends in the state the
      corrected loop ends in. */
  lemma AsWrittenSameState(size: nat, rands: seq<nat>)
    requires size >= 1 && |rands| == WORKLOAD_SIZE
    ensures SeedAsWritten(size, rands).Dealt? ==> SeedAsWritten(size, rands).c == Seed(size, rands).c
  {
    var c := Init(size, rands);
    AsWrittenInStep(c, 1);
    assert Seed(size, rands).c == SeedFrom(c, 1).c;
  }

  /** Slot 0 is never dealt. With 2 <= size <= `WORKLOAD_SIZE`, no send of
      the seed phase carries uid 0 (the corrected loop's first send does),
      the last worker gets uid size - 1, and the cursor is left at
      size - 1. */
  lemma AsWrittenSkipsSlotZero(size: nat, rands: seq<nat>)
    requires 2 <= size <= WORKLOAD_SIZE && |rands| == WORKLOAD_SIZE
    ensures SeedAsWritten(size, rands).Dealt?
    ensures var d := SeedAsWritten(size, rands);
            && (forall j :: 0 <= j < |d.sends| ==> d.sends[j].Item? && d.sends[j].w.uid != 0)
            && Seed(size, rands).sends[0] == Item(1, d.c.queue[0])
            && d.sends[size - 2] == Item(size - 1, d.c.queue[size - 1])
            && d.c.head == size - 1
  {
    var d := SeedAsWritten(size, rands);
    var sd := Seed(size, rands);
    AsWrittenSameState(size, rands);
    assert d.c == sd.c;
    forall j | 0 <= j < |d.sends|
      ensures d.sends[j].Item? && d.sends[j].w.uid != 0
    {
      assert d.sends[j] == Item(j + 1, d.c.queue[j + 1]);
    }
    assert sd.sends[0] == Item(1, sd.c.queue[0]);
    assert d.sends[size - 2] == Item(size - 1, d.c.queue[size - 1]);
  }

  /** The last worker's item is dealt twice: the first valid completion the
      coordinator handles after the seed phase as written is answered with
      uid size - 1, the uid the last worker was already sent. */
  lemma AsWrittenRedealsLastItem(size: nat, rands: seq<nat>, d: Dealt, m: Message)
    requires 2 <= size <= WORKLOAD_SIZE && |rands| == WORKLOAD_SIZE && d == SeedAsWritten(size, rands)
    requires Acceptable(size, m) && m.w.uid as int < WORKLOAD_SIZE
    ensures d.Dealt? && |d.sends| == size - 1 && Consistent(d.c) && d.c.size == size
    ensures var h := HandleWorkers(d.c, m);
            && d.sends[size - 2].Item? && d.sends[size - 2].w.uid as int == size - 1
            && h.replies == [Item(m.sender, h.c.queue[size - 1])]
            && h.c.queue[size - 1].uid as int == size - 1
  {
    AsWrittenSkipsSlotZero(size, rands);
  }

  /** With `WORKLOAD_SIZE` workers the seed phase reads `queue[WORKLOAD_SIZE]`. */
  lemma AsWrittenReadsPastEnd(rands: seq<nat>)
    requires |rands| == WORKLOAD_SIZE
    ensures SeedAsWritten(WORKLOAD_SIZE + 1, rands) == ReadPastEnd(WORKLOAD_SIZE)
  {
  }
}

=== FILE: sleep.dfy ===
/** `sleeptime`: the simulated cost of a work item, in microseconds, drawn
    from a category-dependent range. The value of `rand()` is a parameter. */
module Sleep {
  import opened Workloads

  /** glibc's `RAND_MAX`; `rand()` returns values in `[0, RAND_MAX]`. */
  const RAND_MAX: nat := 0x7FFF_FFFF

  /** Lower end of the sleep range of a category (microseconds, inclusive). */
  function SleepLow(i: int): int
    requires 0 <= i < NUM_TYPES
  {
    [100_000, 2_000_000, 1_000_000, 5_000_000, 7_000_000][i]
  }

  /** Upper end of the sleep range of a category (microseconds, exclusive). */
  function SleepHigh(i: int): int
    requires 0 <= i < NUM_TYPES
  {
    [3_000_000, 5_000_000, 6_000_000, 7_500_000, 9_000_000][i]
  }

  /** `sleeptime(i)`, with `rand` the value `rand()` returned. */
  function SleepTime(i: int, rand: nat): (t: uint32)
    ensures 0 <= i < NUM_TYPES ==> SleepLow(i) <= t as int < SleepHigh(i)
    ensures !(0 <= i < NUM_TYPES) ==> t == 0
  {
    if i == 0 then (100_000 + rand % 2_900_000) as uint32
    else if i == 1 then (2_000_000 + rand % 3_000_000) as uint32
    else if i == 2 then (1_000_000 + rand % 5_000_000) as uint32
    else if i == 3 then (5_000_000 + rand % 2_500_000) as uint32
    else if i == 4 then (7_000_000 + rand % 2_000_000) as uint32
    else 0
  }

  /** Every duration of a category's range is produced by some value
      `rand()` can return: the ranges above are exact, not just bounds. */
  lemma SleepRangeIsExact(i: int, t: int)
    requires 0 <= i < NUM_TYPES
    requires SleepLow(i) <= t < SleepHigh(i)
    ensures t - SleepLow(i) <= RAND_MAX
    ensures SleepTime(i, t - SleepLow(i)) as int == t
  {
  }

  /** A worker sleeps on `sleeptime(w->i)`, converting the unsigned category
      to `int`. Every category the coordinator generates gives a positive
      sleep of less than nine seconds; a category of 2^31 or above turns
      negative and gives none. */
  lemma GeneratedCategoriesSleep(w: Workload, rand: nat)
    ensures w.i as int < NUM_TYPES ==> 100_000 <= SleepTime(AsInt32(w.i), rand) as int < 9_000_000
    ensures w.i as int >= NUM_TYPES ==> SleepTime(AsInt32(w.i), rand) == 0
  {
  }
}

=== FILE: tally.dfy ===
/** Sums, counts and index ranges over sequences. Each is defined from the
    last element, so that appending one element is one unfolding away. */
module Tally {

  function Min(a: int, b: int): int {
    if a <= b then a else b
  }

  /** Sum of a sequence of counters. */
  function Sum(s: seq<nat>): nat {
    if |s| == 0 then 0 else Sum(s[..|s| - 1]) + s[|s| - 1]
  }

  /** A table of `n` zeroed counters, as `memset` leaves it. */
  function Zeros(n: nat): (z: seq<nat>)
    ensures |z| == n
    ensures forall k :: 0 <= k < n ==> z[k] == 0
    ensures Sum(z) == 0
  {
    if n == 0 then []
    else
      var z := Zeros(n - 1) + [0];
      assert z[..n - 1] == Zeros(n - 1);
      z
  }

  /** Changing one counter changes the sum by the difference. */
  lemma {:induction false} SumUpdate(s: seq<nat>, k: nat, v: nat)
    requires k < |s|
    ensures Sum(s[k := v]) == Sum(s) - s[k] + v
  {
    var n := |s| - 1;
    if k == n {
      assert s[k := v][..n] == s[..n];
    } else {
      assert s[k := v][..n] == s[..n][k := v];
      SumUpdate(s[..n], k, v);
    }
  }

  /** Number of occurrences of `x` in `s`. */
  function Count<T(==)>(s: seq<T>, x: T): nat {
    if |s| == 0 then 0 else Count(s[..|s| - 1], x) + (if s[|s| - 1] == x then 1 else 0)
  }

  /** Replacing one element changes the count by at most the two indicator values. */
  lemma {:induction false} CountUpdate<T>(s: seq<T>, k: nat, v: T, x: T)
    requires k < |s|
    ensures Count(s[k := v], x) == Count(s, x) - (if s[k] == x then 1 else 0) + (if v == x then 1 else 0)
  {
    var n := |s| - 1;
    if k == n {
      assert s[k := v][..n] == s[..n];
    } else {
      assert s[k := v][..n] == s[..n][k := v];
      CountUpdate(s[..n], k, v, x);
    }
  }

  /** An element that is not `x` keeps the count below the length. */
  lemma {:induction false} CountMissing<T>(s: seq<T>, k: nat, x: T)
    requires k < |s| && s[k] != x
    ensures Count(s, x) <= |s| - 1
  {
    var n := |s| - 1;
    if k < n {
      CountMissing(s[..n], k, x);
    } else {
      CountAtMostLength(s[..n], x);
    }
  }

  lemma {:induction false} CountAtMostLength<T>(s: seq<T>, x: T)
    ensures Count(s, x) <= |s|
  {
    if |s| > 0 {
      CountAtMostLength(s[..|s| - 1], x);
    }
  }

  /** If every element but the first is counted, they all equal `x`. */
  lemma CountAllButFirst<T>(s: seq<T>, x: T)
    requires |s| > 0 && s[0] != x
    requires Count(s, x) >= |s| - 1
    ensures forall k :: 1 <= k < |s| ==> s[k] == x
  {
    forall k | 1 <= k < |s|
      ensures s[k] == x
    {
      if s[k] != x {
        CountUpdate(s, k, x, x);
        assert s[k := x][0] == s[0];
        CountMissing(s[k := x], 0, x);
      }
    }
  }

  /** Every element but the first being `x` counts all of them. */
  lemma {:induction false} CountAllOthers<T>(s: seq<T>, x: T)
    requires |s| > 0 && s[0] != x
    requires forall k :: 1 <= k < |s| ==> s[k] == x
    ensures Count(s, x) == |s| - 1
  {
    if |s| > 1 {
      CountAllOthers(s[..|s| - 1], x);
    }
  }

  /** A value that does not occur is counted zero times. */
  lemma {:induction false} CountAbsent<T>(s: seq<T>, x: T)
    requires forall k :: 0 <= k < |s| ==> s[k] != x
    ensures Count(s, x) == 0
  {
    if |s| > 0 {
      CountAbsent(s[..|s| - 1], x);
    }
  }

  /** The consecutive naturals `lo, lo + 1, ..., hi - 1`. */
  function Range(lo: nat, hi: nat): (r: seq<nat>)
    ensures |r| == if hi <= lo then 0 else hi - lo
    ensures forall k :: 0 <= k < |r| ==> r[k] == lo + k
  {
    if hi <= lo then [] else Range(lo, hi - 1) + [hi - 1]
  }

  /** Adjacent ranges concatenate. */
  lemma RangeAppend(lo: nat, mid: nat, hi: nat)
    requires lo <= mid <= hi
    ensures Range(lo, mid) + Range(mid, hi) == Range(lo, hi)
  {
  }
}

=== FILE: worker.dfy ===
/** The worker side of dynamic_mpi.c: await a record, compute it, report it,
    and stop on the sentinel. `compute_workload` is an opaque step whose
    only effect on the record is the elapsed time it writes. */
module Workers {
  import opened Workloads

  /** A worker's state: its `queue_head` (0 while it works, -1 once told to
      stop), the record it holds, and whether it is still waiting for its
      first record (the receive before the loop) rather than for a reply
      (the receive at the end of the loop body). */
  datatype Worker = Worker(head: int, local: Workload, first: bool)

  /** What a worker does with one received record: its next state and the
      record it sends back, if any. */
  datatype Reaction = Reaction(next: Worker, reply: seq<Workload>)

  /** A worker at start-up; its record is not yet initialised. */
  function Start(): Worker {
    Worker(0, Workload(0, 0, 0.0), true)
  }

  /** `compute_workload`: the record comes back with its elapsed time set
      and its uid and category as they were, so the coordinator can file it. */
  function Compute(w: Workload, elapsed: real): (r: Workload)
    ensures r.uid == w.uid && r.i == w.i
    ensures r.f == elapsed
  {
    w.(f := elapsed)
  }

  /** The loop guard `working(queue_head)` and, while it holds, one
      computation and one report to the coordinator: a working worker keeps
      its `queue_head` and reports exactly the record it now holds; a
      stopped one keeps its state and reports nothing. */
  function Continue(wk: Worker, elapsed: real): (r: Reaction)
    ensures r.next.head == wk.head && r.next.first == wk.first
    ensures |r.reply| == (if Working(wk.head) then 1 else 0)
    ensures Working(wk.head) ==> r.reply == [r.next.local] && r.next.local.uid == wk.local.uid && r.next.local.f == elapsed
    ensures !Working(wk.head) ==> r.next == wk
  {
    if Working(wk.head) then
      var done := Compute(wk.local, elapsed);
      Reaction(wk.(local := done), [done])
    else
      Reaction(wk, [])
  }

  /** A worker receiving one record from the coordinator. The first receive
      stops only on the exact sentinel uid (`local_workload.uid == -1`
      compares in unsigned arithmetic); later receives stop on any uid
      `recv_workload` rejects. A worker that goes on returns the record it
      was given with only the elapsed time changed; a stopped worker sends
      nothing more and its `queue_head` of -1 is never working. */
  function Receive(wk: Worker, rec: Workload, elapsed: real): (r: Reaction)
    requires Working(wk.head)
    ensures !r.next.first
    ensures !Working(r.next.head) <==> (if wk.first then rec.uid == SENTINEL_UID else rec.uid as int >= WORKLOAD_SIZE)
    ensures !Working(r.next.head) ==> r.next.head == -1 && r.reply == []
    ensures Working(r.next.head) ==>
              && r.next.head == wk.head
              && r.reply == [r.next.local]
              && r.next.local.uid == rec.uid && r.next.local.i == rec.i && r.next.local.f == elapsed
  {
    if wk.first then
      var head := if rec.uid == SENTINEL_UID then -1 else wk.head;
      Continue(Worker(head, rec, false), elapsed)
    else
      var head := if RecvId(rec, MASTER) == -1 then -1 else wk.head;
      Continue(Worker(head, rec, false), elapsed)
  }

  /** The sentinel stops a running worker whichever receive it meets, and a
      queue item never does. */
  lemma SentinelStopsItemsDoNot(wk: Worker, rec: Workload, elapsed: real)
    requires Working(wk.head)
    ensures !Working(Receive(wk, Sentinel(), elapsed).next.head)
    ensures rec.uid as int < WORKLOAD_SIZE ==> Receive(wk, rec, elapsed).reply == [Compute(rec, elapsed)]
  {
  }

  /** The two receives disagree on records that are neither items nor the
      sentinel: uid `WORKLOAD_SIZE` is computed and returned by a worker
      waiting for its first record, but stops a worker waiting for a reply. */
  lemma ReceivesDisagreeOffProtocol(elapsed: real)
    ensures var odd := Workload(WORKLOAD_SIZE as uint32, 0, 0.0);
            && Working(Receive(Start(), odd, elapsed).next.head)
            && !Working(Receive(Start().(first := false), odd, elapsed).next.head)
  {
  }
}

=== FILE: workload.dfy ===
/** The `workload` record exchanged between the coordinator and its workers,
    the constants of dynamic_mpi.c, and the C integer conversions the
    sentinel test depends on. */
module Workloads {

  /** Number of work items the coordinator generates. */
  const WORKLOAD_SIZE: nat := 1024

  /** Number of work categories; categories are drawn as `rand() % NUM_TYPES`. */
  const NUM_TYPES: nat := 5

  /** Rank of the coordinator process. */
  const MASTER: nat := 0

  /** 2^32, the number of values of a 32-bit unsigned integer. */
  const UINT32_MODULUS: int := 0x1_0000_0000

  /** 2^31, the bound of a 32-bit two's-complement `int`: its values are
      `-INT32_LIMIT .. INT32_LIMIT - 1`. */
  const INT32_LIMIT: int := 0x8000_0000

  /** C's `unsigned int` on the platforms MPI runs on: 32 bits. */
  newtype uint32 = x: int | 0 <= x < UINT32_MODULUS

  /** C's conversion of an `int` value to `unsigned int`: reduction modulo 2^32. */
  function ToUint32(x: int): (u: uint32)
    ensures (u as int - x) % UINT32_MODULUS == 0
    ensures 0 <= x < UINT32_MODULUS ==> u as int == x
  {
    (x % UINT32_MODULUS) as uint32
  }

  /** C's conversion of an `unsigned int` to a 32-bit two's-complement `int`:
      values of 2^31 and above come out negative. */
  function AsInt32(u: uint32): (x: int)
    ensures -INT32_LIMIT <= x < INT32_LIMIT
    ensures ToUint32(x) == u
  {
    if (u as int) < INT32_LIMIT then u as int else u as int - UINT32_MODULUS
  }

  /** The uid the code writes as `w.uid = -1`: the unsigned bit pattern of -1. */
  const SENTINEL_UID: uint32 := ToUint32(-1)

  /** One work item: its identifier (also its queue slot), its category and
      the elapsed time a worker measured for it. The elapsed time is carried,
      never computed on, so it is an unconstrained real. */
  datatype Workload = Workload(uid: uint32, i: uint32, f: real)

  /** The stop record sent to a worker. Its category is never read by a
      receiver; the model fixes it at 0. */
  function Sentinel(): Workload {
    Workload(SENTINEL_UID, 0, 0.0)
  }

  /** `working`: the range test used both for "the queue cursor still
      points at an unassigned item" and for "a received uid is not the
      sentinel". A working value indexes the queue, and on any 32-bit `int`
      the test is the unsigned comparison with `WORKLOAD_SIZE`: a negative
      value, read as unsigned, is too large. */
  predicate Working(head: int): (w: bool)
    ensures w ==> 0 <= head < WORKLOAD_SIZE
    ensures -INT32_LIMIT <= head < INT32_LIMIT ==> (w <==> ToUint32(head) as int < WORKLOAD_SIZE)
  {
    0 <= head < WORKLOAD_SIZE
  }

  /** The return-value logic of `recv_workload`: the unsigned uid is passed
      to the `int` parameter of `working`, and the sender's rank is returned
      only when that test holds; otherwise -1. */
  function RecvId(w: Workload, source: nat): (id: int)
    ensures id == source <==> w.uid as int < WORKLOAD_SIZE
    ensures id != source ==> id == -1
    ensures w.uid == SENTINEL_UID ==> id == -1
  {
    if Working(AsInt32(w.uid)) then source else -1
  }

  /** The sentinel's uid is 2^32 - 1, reads back as -1 once converted to
      `int`, and is therefore never a working position. */
  lemma SentinelReadsAsMinusOne()
    ensures SENTINEL_UID as int == UINT32_MODULUS - 1
    ensures AsInt32(SENTINEL_UID) == -1
    ensures !Working(AsInt32(SENTINEL_UID))
  {
  }

  /** A uid at or above 2^31 becomes negative as an `int`: the conversion
      rejects it through the lower bound of `working`, not the upper one. */
  lemma HighUidsTurnNegative(u: uint32)
    requires u as int >= INT32_LIMIT
    ensures AsInt32(u) < 0 && !Working(AsInt32(u))
  {
  }
}
